=== FILE: README.md ===
# HTPC GUI controller — a Dafny model

This project models the decision core of the home-theatre-PC watchdog in
`src/htpcgui.py` (the GUI controller) and the shared `xrandr_query`
parser of `src/htpclib.py`. The watchdog starts the front-end GUI when it
is needed, stops it when it is not, toggles that need on every press of the
power button, and shuts the machine down after a press once neither the GUI
nor a recording needs the machine.

With the I/O replaced by inputs, the core is:

- **The `xrandr -q` mode-line parser** (`Xrandr`). The regular expression
  `^\s+(\d+)x(\d+)\s+([\d.]+)([*+]?)` is written as a greedy character
  tokenizer, `MatchModeLine`. It is proved equal to the pattern's meaning,
  given as cut points of the line (`ModeLineShape`, `Greedy`), in both
  directions. Screen records are built from the header matches (`Query`).
  The current mode is the first active mode of the first primary screen
  that has one (`Current`). That choice is proved against an independent
  description, `IsCurrentAt`. `htpcgui.py` and `htpclib.py` have the same
  parser: their patterns are identical, and `if match` and
  `if match != None` agree on `re.match` results. One model covers both.
- **The power-button scan** (`PowerButton`). The received bytes are decoded
  as ASCII and split at `\n`, and each line is searched for
  `button/power`. This is proved equivalent to searching the whole text,
  because the needle has no newline.
- **The recording decision** (`Recording`). The decision uses the code's
  own sign, `now - start`. So every recording that has not started yet
  counts as pending, however far ahead it is (`FutureRecordAlwaysPending`).
- **The screen poller** (`ScreenPoll`). A counter lets only every
  `skip`-th call probe the display. A probe compares the whole mode record
  with the stored one.
- **The main-loop tick** (`Watchdog`). One pass of `while 1` is a function
  from (configuration, state, tick input) to (state, actions, breaks?).
  The steps run in the code's order: button, start, stop, exit detection,
  screen poll, shutdown. `Loop` is the `while 1` loop with its `break`
  for any pass, and `Run` is that loop with `Tick` as the pass.

Behaviours of this version of the script that the model keeps:

- The stop step prefers the configured stop command over killing the
  process tree.
- There is no display-drift correction: a detected screen change is only
  logged.
- The recording decision is asked only on a button press.
- The loop ends only in the pass where a press sets `shutdown`.
- When no screen is marked primary, `xrandr_current` returns `None`. It
  does not fall back to the first output.

## Model

| member | source | states |
|---|---|---|
| Text.Split | src/htpcgui.py:46 | `str.split('\n')` yields at least one piece; no piece holds the separator; joining the pieces gives back the input |
| Text.SplitJoin | src/htpclib.py:41 | splitting a text joined from separator-free lines gives back exactly those lines, so `split` cuts at every `\n` and nowhere else |
| Text.ContainsIffSomePart | src/htpcgui.py:89-91 | a separator-free needle occurs in some split line iff it occurs in the whole text |
| Xrandr.MatchModeLine | src/htpcgui.py:34 | a match captures a non-empty digit width and height, a non-empty digits-or-dots rate, and a marker that is empty, `*` or `+` |
| Xrandr.MatchModeLineSound | src/htpcgui.py:34 | every accepted line fits the pattern: leading whitespace, digits `x` digits, whitespace, rate, optional marker, any tail. The reported groups are the greedy fit |
| Xrandr.MatchModeLineComplete | src/htpclib.py:29 | every line the pattern fits is accepted, with the fitted width and height. Under the greedy fit all four groups equal the fitted ones |
| Xrandr.MatchModeLineIff | src/htpcgui.py:47-48 | `re.match` succeeds iff some choice of cut points fits the line |
| Xrandr.ParseModeLine | src/htpcgui.py:47-53 | a line gives a mode iff it matches. Width, height and rate equal the captured groups 1–3. `active` iff the marker is `*`, `preferred` iff it is `+`, never both |
| Xrandr.ParseModeLineIff | src/htpclib.py:42-48 | a line gives a mode iff the pattern fits it. The mode carries the groups of the greedy fit |
| Xrandr.ParseActiveModeLine | src/htpcgui.py:52-53 | ` 800x600 60.00*+` gives width 800, height 600, rate 60.00, active and not preferred |
| Xrandr.ParseDetachedMarkerLine | src/htpclib.py:29 | a marker separated from the rate by a space is not captured: ` 800x600 60.00 +` gives a mode with neither flag set |
| Xrandr.HeaderIsNotModeLine | src/htpcgui.py:34 | a line with no leading whitespace never gives a mode |
| Xrandr.ParseModes | src/htpclib.py:40-48 | the `modes` list has at most one entry per line, and every entry is well formed |
| Xrandr.ParseModesAppend | src/htpcgui.py:45-53 | lines are parsed independently and in input order: the modes of `xs + ys` are the modes of `xs` followed by those of `ys` |
| Xrandr.ParseModesMembers | src/htpclib.py:41-48 | a mode is listed iff some line parses to it; lines that do not match are dropped |
| Xrandr.Query | src/htpclib.py:39-54 | one screen record per header match, in order, named by the captured word, primary iff the optional group captured `primary`, with the modes of its block's lines |
| Xrandr.QueryModesOfLines | src/htpcgui.py:44-57 | a screen whose mode block is built from separate lines gets exactly the modes of those lines |
| Xrandr.FirstActiveIndex | src/htpcgui.py:68-70 | the index found is the first active mode, or the end of the list when no mode is active |
| Xrandr.Current | src/htpcgui.py:62-72 | any mode returned is active |
| Xrandr.CurrentIsFirstPrimaryActive | src/htpcgui.py:62-72 | when mode `k` of screen `i` is the first active mode of the first primary screen that has one, `xrandr_current` returns that mode. Non-primary screens are ignored |
| Xrandr.CurrentNoneIff | src/htpcgui.py:62-72 | `xrandr_current` returns `None` iff no primary screen has an active mode |
| PowerButton.DecodeAscii | src/htpcgui.py:89 | decoding succeeds iff every byte is below 128, and then maps each byte to the character with the same code |
| PowerButton.ScanLines | src/htpcgui.py:89-91 | the line loop answers true iff some line contains the needle |
| PowerButton.CheckForPowerButton | src/htpcgui.py:84-93 | false when the socket is not ready. Otherwise a decode error iff some byte is non-ASCII. Else true iff some line, and equally the whole text, contains `button/power` |
| Recording.RecordPending | src/htpcgui.py:113-124 | pending when any recording is active. Otherwise, with a next recording, pending iff `now - start < 60 * pendingTime` (the division by 60 removed). With no next recording, not pending |
| Recording.FutureRecordAlwaysPending | src/htpcgui.py:119-122 | with a non-negative window, a recording that has not started yet is always pending, because of the `now - start` sign |
| Recording.LongStartedRecordNotPending | src/htpcgui.py:116-122 | a next recording that started at least the window ago is not pending unless a recording is active |
| Recording.DefaultWindowBoundary | src/htpcgui.py:113-122 | with the default 45 minutes, 2699 s after the start is pending and 2700 s is not |
| ScreenPoll.PollScreenChange | src/htpcgui.py:96-110 | the first call probes, reports no change and has count 0. Later calls count. At `skip` they reset the count and store the probed mode, and report a change iff the whole mode record differs. Otherwise `changed` and `mode` are kept |
| ScreenPoll.PollCountBounded | src/htpcgui.py:102-105 | for `skip >= 1` the count stays in `[0, skip)` |
| ScreenPoll.PollSameModeNoChange | src/htpcgui.py:104-108 | a probe that finds the stored mode again reports no change |
| ScreenPoll.PollQuietRun | src/htpcgui.py:102-110 | calls that keep the count below `skip` only increment it; they read no probe and keep mode and flag |
| ScreenPoll.PollProbesEverySkipCalls | src/htpcgui.py:96-110 | from a reset count, `skip` calls probe once, on the last call. The result depends only on the mode that call sees |
| Watchdog.Init | src/htpcgui.py:158-162 | the loop starts with no GUI running, no process, no shutdown and no poll result. The GUI is needed iff the machine did not wake for a recording |
| Watchdog.ButtonStep | src/htpcgui.py:177-189 | a press toggles `gui_needed` and sets `shutdown` to "not needed and no recording pending". Without a press nothing changes |
| Watchdog.StartStep | src/htpcgui.py:191-196 | afterwards a needed GUI is running. The start action is issued iff the GUI was needed and not running, and then a process handle is recorded. Without it nothing changes |
| Watchdog.StopStep | src/htpcgui.py:198-211 | a running GUI that is no longer needed is stopped. A configured stop command wins and keeps the handle. Else the tree is killed and the handle cleared. With no handle only a log line. Running becomes false in every case |
| Watchdog.Reconcile | src/htpcgui.py:191-211 | after the start and stop steps the GUI runs iff it is needed. At most one action; start only when needed and not running; stop only when running and not needed |
| Watchdog.ExitStep | src/htpcgui.py:213-215 | an observed exit clears `gui_running`. Exit detection never sets it and changes nothing else |
| Watchdog.PollStep | src/htpcgui.py:217-221 | the screen poll updates only the poll state; a reported change has no effect on the GUI |
| Watchdog.ShutdownStep | src/htpcgui.py:223-227 | a set `shutdown` appends the shutdown command once and breaks; otherwise nothing is added |
| Watchdog.Tick | src/htpcgui.py:175-227 | each pass: a press toggles `gui_needed`; `shutdown` is assigned only on a press; the loop breaks iff `shutdown`. Afterwards a running GUI is needed. On breaking the GUI is neither needed nor running, and the shutdown command is the last action and issued once |
| Watchdog.TickActions | src/htpcgui.py:191-227 | with `needed` the need after the button: a pass starts the GUI iff it is needed and was not running; runs the stop command iff it is not needed, was running and a command is configured; kills the tree iff not needed, running, no command and a handle is set; issues the shutdown iff it breaks; at most two actions |
| Watchdog.ReconcileStopActions | src/htpcgui.py:198-207 | start-then-stop issues the stop command iff the GUI was running, is not needed and a command is configured, and the kill iff the same holds with no command and a handle set |
| Watchdog.Loop | src/htpcgui.py:175-227 | `while 1` with `break` for any pass: no inputs give no actions and no break; a single input is exactly one pass, with its state, its actions and its break; a run stops only after reading some input |
| Watchdog.LoopIgnoresInputsAfterBreak | src/htpcgui.py:224-227 | once the loop has broken, later inputs are never read: the run over `xs + ys` equals the run over `xs` |
| Watchdog.LoopContinuesAcrossInputs | src/htpcgui.py:175-230 | passes follow each other with nothing carried but the state: a run over `xs + ys` that does not break within `xs` is the run over `xs` followed by the run over `ys` from where it left off, with the traces concatenated |
| Watchdog.Run | src/htpcgui.py:175-227 | the controller's loop with `Tick` as the pass: no inputs leave the state unchanged with an empty trace; a first pass that sets `shutdown` ends the run with its own actions |
| Watchdog.RunOnePass | src/htpcgui.py:175-227 | a run over one input is one pass of the loop body: `Tick`'s state and actions, and a break iff that pass breaks |
| Watchdog.TickKeepsLoopInvariant | src/htpcgui.py:158-227 | the loop starts in, and every non-breaking pass keeps, the invariant "`shutdown` false, and a running GUI is needed and has a process". In each pass `shutdown` implies not needed |
| Watchdog.RunShutdownOnce | src/htpcgui.py:223-227 | over any run, the shutdown command is issued exactly once if the loop broke and never otherwise, as the last action. On breaking the GUI is neither needed nor running |
| Watchdog.RunTogglesByPressParity | src/htpcgui.py:180-181 | over a run that does not break, `gui_needed` flips iff the number of presses is odd; two presses restore it |
| Watchdog.StartThenPowerOff | src/htpcgui.py:158-227 | not woken for a recording and with no stop command: the first pass starts the GUI; a press with no recording pending kills the GUI tree, shuts down and breaks, and the third input, whatever it is, is never read |

## Left out

- Process and shell I/O (`shell_execute`, `Popen`, `communicate`, `poll`) is not modelled. Command output becomes an input string, process exit a boolean tick input, and starting or stopping becomes an action.
- `kill_process_recursive` (psutil process-tree kill) becomes the abstract `KillTree` action.
- The ACPI socket (`create_acpi_socket`, `select.select`, `recv(1024)`) is not modelled. Readiness and the received bytes are inputs. A press split across two `recv` calls is not detected by the code, and the model has the same limit.
- The PVR client (`tvhclib`, `HtspClient`, `try_open`, `open_fail`, `get_wakedup`) is an external library. Active and next recordings, and the wake-up reason, are inputs.
- Configuration loading, `sys.exit`, logging and `time.sleep` are I/O and timing, and are not modelled. The stop command is a configuration value; the empty string means not configured.
- The screen-header pattern `(\w+)\s+connected\s+(primary|)?.+\n(\s+[x*+.\d\s]+\n)` with `re.findall` and `re.MULTILINE` is not modelled. Its backtracking behaviour is not reproduced. `Query` starts from the `findall` tuples: name, `primary` group, mode block. The promise that a `disconnected` output yields no record belongs to that pattern and is not stated.
- Text.IsDigit: covers the ASCII digits only, because xrandr prints ASCII. Python's `\d` on `str` also accepts other Unicode decimal digits. `\s` is modelled in full.
- Recording.RecordPending: uses exact real arithmetic. Floating-point rounding of `time.time()` and of the division by 60.0 is not modelled.
- A `UnicodeDecodeError` in `check_for_powerbutton` escapes the main loop and ends the process. `CheckForPowerButton` reports it as `None`. `Tick` takes the press as a boolean and does not model the crash.

=== FILE: maybe.dfy ===
/** The optional value the Python code expresses with `None`. */
module Maybe {

  datatype Option<+T> = None | Some(value: T)
}

=== FILE: poller.dfy ===
/**
 The screen-change poller `poll_screen_change`: a counter that lets only
 every `skip`-th call ask `xrandr_current` for the current mode. The mode
 that call would return is an input, read only when the call probes.
 */
module ScreenPoll {
  import opened Maybe
  import opened Xrandr

  /** The default `skip`. */
  const DefaultSkip := 5

  /** The dictionary the poller threads from call to call. */
  datatype PollState = PollState(changed: bool, count: int, mode: Option<Mode>)

  /** Whether a call with this previous result runs `xrandr_current`. */
  predicate Probes(last: Option<PollState>, skip: int) {
    last.None? || last.value.count + 1 >= skip
  }

  /**
   One call: the first call probes and reports no change; later calls
   count, and once the count reaches `skip` they reset it, probe, and
   report whether the whole mode record differs from the stored one.
   Between probes, `changed` and `mode` stay as they were.
   */
  function PollScreenChange(last: Option<PollState>, skip: int, probe: Option<Mode>): (r: PollState)
    ensures last.None? ==> r == PollState(false, 0, probe)
    ensures last.Some? && Probes(last, skip) ==>
      r.count == 0 && r.mode == probe && (r.changed <==> last.value.mode != probe)
    ensures !Probes(last, skip) ==>
      r.count == last.value.count + 1 && r.changed == last.value.changed && r.mode == last.value.mode
  {
    match last
    case None => PollState(false, 0, probe)
    case Some(s) =>
      var counted := s.(count := s.count + 1);
      if counted.count >= skip then
        PollState(counted.mode != probe, 0, probe)
      else
        counted
  }

  /** For `skip >= 1` the counter stays in `[0, skip)`. */
  lemma PollCountBounded(last: Option<PollState>, skip: int, probe: Option<Mode>)
    requires skip >= 1
    requires last.Some? ==> 0 <= last.value.count < skip
    ensures 0 <= PollScreenChange(last, skip, probe).count < skip
  {
  }

  /** A probe that finds the stored mode again reports no change. */
  lemma PollSameModeNoChange(s: PollState, skip: int)
    requires Probes(Some(s), skip)
    ensures !PollScreenChange(Some(s), skip, s.mode).changed
  {
  }

  /** Successive calls, each offered the mode a probe would see at that call. */
  function PollRun(s: PollState, skip: int, probes: seq<Option<Mode>>): PollState
    decreases |probes|
  {
    if |probes| == 0 then s
    else PollRun(PollScreenChange(Some(s), skip, probes[0]), skip, probes[1..])
  }

  /** Calls that stay below `skip` only count: mode and flag are untouched and no probe is read. */
  lemma {:induction false} PollQuietRun(s: PollState, skip: int, probes: seq<Option<Mode>>)
    requires s.count + |probes| < skip
    ensures PollRun(s, skip, probes) == s.(count := s.count + |probes|)
    decreases |probes|
  {
    if |probes| > 0 {
      PollQuietRun(s.(count := s.count + 1), skip, probes[1..]);
    }
  }

  /**
   From a reset counter, `skip` calls probe exactly once, on the last of
   them: the result depends only on the mode seen by that call.
   */
  lemma {:induction false} PollProbesEverySkipCalls(s: PollState, skip: int, probes: seq<Option<Mode>>)
    requires skip >= 1 && s.count == 0 && |probes| == skip
    ensures PollRun(s, skip, probes) == PollState(s.mode != probes[skip - 1], 0, probes[skip - 1])
  {
    var quiet := probes[..skip - 1];
    PollQuietRun(s, skip, quiet);
    PollRunAppend(s, skip, quiet, [probes[skip - 1]]);
    assert probes == quiet + [probes[skip - 1]];
  }

  /** Running two batches of calls is running their concatenation. */
  lemma {:induction false} PollRunAppend(s: PollState, skip: int, xs: seq<Option<Mode>>, ys: seq<Option<Mode>>)
    ensures PollRun(s, skip, xs + ys) == PollRun(PollRun(s, skip, xs), skip, ys)
    decreases |xs|
  {
    if |xs| > 0 {
      assert (xs + ys)[0] == xs[0];
      assert (xs + ys)[1..] == xs[1..] + ys;
      PollRunAppend(PollScreenChange(Some(s), skip, xs[0]), skip, xs[1..], ys);
    } else {
      assert xs + ys == ys;
    }
  }
}

=== FILE: power.dfy ===
/**
 Power-button detection: the line scan `check_for_powerbutton` runs over
 the bytes one `recv` returned from the ACPI event socket. Whether the
 socket was ready and what it delivered are inputs.
 */
module PowerButton {
  import opened Maybe
  import opened Text

  newtype byte = b: int | 0 <= b < 256

  /** The event text the ACPI daemon sends for a power-button press. */
  const PowerEvent := "button/power"

  /** `bytes.decode('ascii')`: `None` stands for the `UnicodeDecodeError` a byte of 128 or more raises. */
  function DecodeAscii(data: seq<byte>): (text: Option<string>)
    ensures text.Some? <==> forall i :: 0 <= i < |data| ==> data[i] < 128
    ensures text.Some? ==> |text.value| == |data|
    ensures text.Some? ==> forall i :: 0 <= i < |data| ==> text.value[i] as int == data[i] as int
  {
    if forall i :: 0 <= i < |data| ==> data[i] < 128 then
      Some(seq(|data|, i requires 0 <= i < |data| => data[i] as int as char))
    else
      None
  }

  /**
   `check_for_powerbutton`: false when the socket is not ready; otherwise
   the received bytes are decoded and split at `\n`, and the answer is
   whether some line contains the event text. `None` is the decode error
   the function lets escape.
   */
  method CheckForPowerButton(ready: bool, data: seq<byte>) returns (r: Option<bool>)
    ensures !ready ==> r == Some(false)
    ensures ready ==> (r.None? <==> exists i :: 0 <= i < |data| && data[i] >= 128)
    ensures r.Some? && ready ==> DecodeAscii(data).Some?
    ensures r.Some? && ready ==> (r.value <==> SomePartContains(Split(DecodeAscii(data).value, '\n'), PowerEvent))
    ensures r.Some? && ready ==> (r.value <==> Contains(DecodeAscii(data).value, PowerEvent))
  {
    if !ready {
      return Some(false);
    }
    var text := DecodeAscii(data);
    if text.None? {
      return None;
    }
    ContainsIffSomePart(text.value, '\n', PowerEvent);
    var found := ScanLines(Split(text.value, '\n'), PowerEvent);
    return Some(found);
  }

  /** The `for line in ...: if needle in line: return True` loop. */
  method ScanLines(lines: seq<string>, needle: string) returns (found: bool)
    ensures found <==> SomePartContains(lines, needle)
  {
    var i := 0;
    while i < |lines|
      invariant 0 <= i <= |lines|
      invariant forall j :: 0 <= j < i ==> !Contains(lines[j], needle)
    {
      if Contains(lines[i], needle) {
        return true;
      }
      i := i + 1;
    }
    return false;
  }
}

=== FILE: recording.dfy ===
/**
 The recording decision `get_record_pending`: the PVR backend's answers
 (how many recordings are active, the start of the next one) and the
 clock are inputs.
 */
module Recording {
  import opened Maybe

  /** The default `pending_time`, in minutes. */
  const DefaultPendingTime := 45

  /**
   True when a recording is active; otherwise, when a next recording
   exists, whether `(now - start) / 60 < pendingTime`, with the code's
   own sign: `now - start` is negative for a recording still to come.
   */
  function RecordPending(activeRecords: nat, nextStart: Option<int>, now: real, pendingTime: int): (pending: bool)
    ensures activeRecords > 0 ==> pending
    ensures activeRecords == 0 && nextStart.None? ==> !pending
    ensures activeRecords == 0 && nextStart.Some? ==>
      (pending <==> now - nextStart.value as real < 60.0 * pendingTime as real)
  {
    if activeRecords > 0 then true
    else if nextStart.Some? then
      var timeToNext := now - nextStart.value as real;
      timeToNext / 60.0 < pendingTime as real
    else false
  }

  /**
   With a non-negative window, every recording that has not started yet
   counts as pending, however far ahead it lies.
   */
  lemma FutureRecordAlwaysPending(start: int, now: real, pendingTime: int)
    requires pendingTime >= 0
    requires now < start as real
    ensures RecordPending(0, Some(start), now, pendingTime)
  {
    assert now - start as real < 0.0;
  }

  /**
   A recording whose start lies `60 * pendingTime` seconds or more in the
   past does not keep the machine up unless it is still active.
   */
  lemma LongStartedRecordNotPending(start: int, now: real, pendingTime: int)
    requires now - start as real >= 60.0 * pendingTime as real
    ensures !RecordPending(0, Some(start), now, pendingTime)
    ensures RecordPending(1, Some(start), now, pendingTime)
  {
  }

  /** At the default window the boundary is 2700 seconds: 2699 is pending, 2700 is not. */
  lemma DefaultWindowBoundary(start: int)
    ensures RecordPending(0, Some(start), start as real + 2699.0, DefaultPendingTime)
    ensures !RecordPending(0, Some(start), start as real + 2700.0, DefaultPendingTime)
  {
  }
}

=== FILE: text.dfy ===
/**
 String helpers shared by the parsers: Python's character classes, the
 longest-run scan a greedy regex quantifier performs, substring search
 (`t in s`) and `str.split` on a one-character separator.
 */
module Text {

  /** Python's `\s` on `str` patterns: exactly the characters `str.isspace()` accepts. */
  predicate IsSpace(c: char) {
    || ('\t' <= c <= '\r')
    || ('\U{1C}' <= c <= ' ')
    || c == '\U{85}'
    || c == '\U{A0}'
    || c == '\U{1680}'
    || ('\U{2000}' <= c <= '\U{200A}')
    || ('\U{2028}' <= c <= '\U{2029}')
    || c == '\U{202F}'
    || c == '\U{205F}'
    || c == '\U{3000}'
  }

  /** The ASCII decimal digits (see README for the non-ASCII digits `\d` also accepts). */
  predicate IsDigit(c: char) {
    '0' <= c <= '9'
  }

  /** The character classes the mode pattern is built from. */
  datatype CharClass = Space | Digit | RateChar | Marker

  /** Membership in a class: `\s`, `\d`, `[\d.]` and `[*+]`. */
  predicate InClass(c: char, cls: CharClass) {
    match cls
    case Space => IsSpace(c)
    case Digit => IsDigit(c)
    case RateChar => IsDigit(c) || c == '.'
    case Marker => c == '*' || c == '+'
  }

  /**
   The end of the longest run of characters of class `cls` that starts at
   `from`: what a greedy `[...]+` consumes.
   */
  function SpanEnd(s: string, from: nat, cls: CharClass): (j: nat)
    requires from <= |s|
    ensures from <= j <= |s|
    ensures forall k {:trigger InClass(s[k], cls)} :: from <= k < j ==> InClass(s[k], cls)
    ensures j == |s| || !InClass(s[j], cls)
    decreases |s| - from
  {
    if from == |s| || !InClass(s[from], cls) then from else SpanEnd(s, from + 1, cls)
  }

  /** Any end point that bounds a maximal run is the one `SpanEnd` finds. */
  lemma SpanEndUnique(s: string, from: nat, cls: CharClass, j: nat)
    requires from <= j <= |s|
    requires forall k {:trigger InClass(s[k], cls)} :: from <= k < j ==> InClass(s[k], cls)
    requires j == |s| || !InClass(s[j], cls)
    ensures SpanEnd(s, from, cls) == j
  {
  }

  /** `t` occurs in `s` starting at index `i`. */
  predicate OccursAt(s: string, t: string, i: nat) {
    i + |t| <= |s| && s[i..i + |t|] == t
  }

  /** Python's `t in s` on strings. */
  predicate Contains(s: string, t: string) {
    exists i: nat | i <= |s| :: OccursAt(s, t, i)
  }

  /** The index of the first occurrence of `c` in `s`. */
  function IndexOf(s: string, c: char): (k: nat)
    requires c in s
    ensures k < |s| && s[k] == c
    ensures c !in s[..k]
  {
    if s[0] == c then 0
    else
      var k := 1 + IndexOf(s[1..], c);
      assert s[..k] == [s[0]] + s[1..][..k - 1];
      k
  }

  /** `sep.join(parts)` for a one-character separator. */
  function Join(parts: seq<string>, sep: char): string {
    if |parts| == 0 then ""
    else if |parts| == 1 then parts[0]
    else parts[0] + [sep] + Join(parts[1..], sep)
  }

  /**
   Python's `s.split(sep)` for a one-character separator: every separator
   cuts, so the result is never empty and `"".split(sep) == [""]`.
   */
  function Split(s: string, sep: char): (parts: seq<string>)
    ensures |parts| >= 1
    ensures forall i :: 0 <= i < |parts| ==> sep !in parts[i]
    ensures Join(parts, sep) == s
    decreases |s|
  {
    if sep !in s then [s]
    else
      var k := IndexOf(s, sep);
      var rest := Split(s[k + 1..], sep);
      assert s == s[..k] + [sep] + s[k + 1..];
      assert ([s[..k]] + rest)[1..] == rest;
      [s[..k]] + rest
  }

  /** The first separator of `a + [sep] + b` is the one after a separator-free `a`. */
  lemma IndexOfAfterPiece(a: string, sep: char, b: string)
    requires sep !in a
    ensures IndexOf(a + [sep] + b, sep) == |a|
  {
    var s := a + [sep] + b;
    assert s[|a|] == sep;
    assert s[..|a|] == a;
  }

  /** The first piece of `a + [sep] + b` is a separator-free `a`; the rest is `b` split. */
  lemma SplitAfterPiece(a: string, sep: char, b: string)
    requires sep !in a
    ensures Split(a + [sep] + b, sep) == [a] + Split(b, sep)
  {
    var s := a + [sep] + b;
    IndexOfAfterPiece(a, sep, b);
    assert s[..|a|] == a;
    assert s[|a| + 1..] == b;
  }

  /** Splitting undoes joining pieces that hold no separator. */
  lemma {:induction false} SplitJoin(parts: seq<string>, sep: char)
    requires |parts| >= 1
    requires forall i :: 0 <= i < |parts| ==> sep !in parts[i]
    ensures Split(Join(parts, sep), sep) == parts
  {
    if |parts| > 1 {
      var rest := Join(parts[1..], sep);
      assert Join(parts, sep) == parts[0] + [sep] + rest;
      SplitAfterPiece(parts[0], sep, rest);
      SplitJoin(parts[1..], sep);
      assert parts == [parts[0]] + parts[1..];
    }
  }

  /** A window of `b` is the same window, shifted, of any `p + b`. */
  lemma WindowOfSuffix(p: string, b: string, i: nat, n: nat)
    requires i + n <= |b|
    ensures (p + b)[|p| + i..|p| + i + n] == b[i..i + n]
  {
    var u, v := (p + b)[|p| + i..|p| + i + n], b[i..i + n];
    forall x | 0 <= x < n
      ensures u[x] == v[x]
    {
    }
  }

  /** An occurrence of `t` cannot cover a character that `t` lacks. */
  lemma NoStraddle(s: string, t: string, i: nat, m: nat)
    requires OccursAt(s, t, i)
    requires m < |s| && s[m] !in t
    ensures m < i || i + |t| <= m
  {
  }

  /**
   An occurrence of a separator-free `t` in `a + [sep] + b` lies wholly in
   `a` or wholly in `b`.
   */
  lemma ContainsAcrossSeparator(a: string, sep: char, b: string, t: string)
    requires sep !in t
    ensures Contains(a + [sep] + b, t) <==> Contains(a, t) || Contains(b, t)
  {
    var p := a + [sep];
    var s := p + b;
    if Contains(s, t) {
      var i: nat :| i <= |s| && OccursAt(s, t, i);
      NoStraddle(s, t, i, |a|);
      if i + |t| <= |a| {
        assert a[i..i + |t|] == s[i..i + |t|];
        assert OccursAt(a, t, i);
      } else {
        var i': nat := i - |p|;
        WindowOfSuffix(p, b, i', |t|);
        assert OccursAt(b, t, i');
      }
    }
    if Contains(a, t) {
      var i: nat :| i <= |a| && OccursAt(a, t, i);
      assert s[i..i + |t|] == a[i..i + |t|];
      assert OccursAt(s, t, i);
    }
    if Contains(b, t) {
      var i: nat :| i <= |b| && OccursAt(b, t, i);
      WindowOfSuffix(p, b, i, |t|);
      assert OccursAt(s, t, |p| + i);
    }
  }

  /** Some piece of `parts` contains `t`. */
  predicate SomePartContains(parts: seq<string>, t: string) {
    exists i :: 0 <= i < |parts| && Contains(parts[i], t)
  }

  lemma SomePartContainsCons(a: string, rest: seq<string>, t: string)
    ensures SomePartContains([a] + rest, t) <==> Contains(a, t) || SomePartContains(rest, t)
  {
    var parts := [a] + rest;
    if SomePartContains(rest, t) {
      var i :| 0 <= i < |rest| && Contains(rest[i], t);
      assert parts[i + 1] == rest[i];
    }
    if SomePartContains(parts, t) {
      var i :| 0 <= i < |parts| && Contains(parts[i], t);
      if i > 0 {
        assert rest[i - 1] == parts[i];
      }
    }
    if Contains(a, t) {
      assert parts[0] == a;
    }
  }

  /**
   Scanning the pieces of `s.split(sep)` for a separator-free `t` finds it
   exactly when `t` occurs in `s` itself.
   */
  lemma {:induction false} ContainsIffSomePart(s: string, sep: char, t: string)
    requires sep !in t
    ensures Contains(s, t) <==> SomePartContains(Split(s, sep), t)
    decreases |s|
  {
    if sep in s {
      var k := IndexOf(s, sep);
      var a, b := s[..k], s[k + 1..];
      assert s == a + [sep] + b;
      ContainsAcrossSeparator(a, sep, b, t);
      ContainsIffSomePart(b, sep, t);
      SomePartContainsCons(a, Split(b, sep), t);
    } else {
      assert Split(s, sep) == [s];
      assert Split(s, sep)[0] == s;
    }
  }
}

=== FILE: watchdog.dfy ===
/**
 The main loop of the GUI controller as a state machine. One tick runs,
 in this order: the power-button step, the GUI start step, the GUI stop
 step, exit detection, the screen poll (whose result is only logged) and
 the shutdown step. Side effects become actions; what the outside world
 answers (a press, the recording decision, whether the GUI process has
 exited, the mode a screen probe would see) is the tick's input.
 */
module Watchdog {
  import opened Maybe
  import opened Xrandr
  import opened ScreenPoll

  /** The side effects of a tick, in the order they are issued. */
  datatype Action =
    | StartGui     // Popen of the GUI load command
    | RunStopCmd   // shell execution of the GUI stop command
    | KillTree     // kill of the GUI process and all its descendants
    | RunShutdown  // shell execution of the shutdown command

  /** The configured GUI stop command; the empty string is "not configured". */
  datatype Config = Config(guiStop: string)

  /** The loop's variables; `hasProcess` says whether `gui_process` is set. */
  datatype Controller = Controller(
    guiNeeded: bool,
    guiRunning: bool,
    hasProcess: bool,
    shutdown: bool,
    screen: Option<PollState>)

  /**
   What the world answers during one tick: a power-button press, the
   recording decision (asked only on a press), whether `poll()` reports
   that the GUI process has exited, and the mode `xrandr_current` would
   return if the poller probes.
   */
  datatype TickInput = TickInput(pressed: bool, recordPending: bool, processExited: bool, probe: Option<Mode>)

  /** A state together with the actions that produced it. */
  datatype Step = Step(state: Controller, actions: seq<Action>)

  /** The outcome of one tick: the new state, its actions and whether the loop breaks. */
  datatype TickResult = TickResult(state: Controller, actions: seq<Action>, breaks: bool)

  /** The state the loop starts from: the GUI is needed unless the machine woke for a recording. */
  function Init(wokeForRecording: bool): (s: Controller)
    ensures s.guiNeeded <==> !wokeForRecording
    ensures !s.guiRunning && !s.hasProcess && !s.shutdown && s.screen.None?
  {
    Controller(!wokeForRecording, false, false, false, None)
  }

  /**
   The button step: a press toggles whether the GUI is needed and decides
   `shutdown` from the new flag and the recording decision. Without a
   press nothing changes; nothing else ever assigns `shutdown`.
   */
  function ButtonStep(s: Controller, pressed: bool, recordPending: bool): (s': Controller)
    ensures s'.guiNeeded == (s.guiNeeded != pressed)
    ensures pressed ==> (s'.shutdown <==> !s'.guiNeeded && !recordPending)
    ensures !pressed ==> s' == s
    ensures s'.guiRunning == s.guiRunning && s'.hasProcess == s.hasProcess && s'.screen == s.screen
  {
    if pressed then
      var needed := !s.guiNeeded;
      s.(guiNeeded := needed, shutdown := !needed && !recordPending)
    else
      s
  }

  /** The start step: a needed GUI that is not running is started, and its process recorded. */
  function StartStep(s: Controller): (r: Step)
    ensures r.state.guiNeeded ==> r.state.guiRunning
    ensures r.state.guiRunning <==> s.guiRunning || s.guiNeeded
    ensures StartGui in r.actions <==> s.guiNeeded && !s.guiRunning
    ensures |r.actions| <= 1 && (StartGui in r.actions ==> r.state.hasProcess)
    ensures StartGui !in r.actions ==> r == Step(s, [])
    ensures r.state.guiNeeded == s.guiNeeded && r.state.shutdown == s.shutdown && r.state.screen == s.screen
  {
    if s.guiNeeded && !s.guiRunning then Step(s.(guiRunning := true, hasProcess := true), [StartGui])
    else Step(s, [])
  }

  /**
   The stop step: a running GUI that is no longer needed is stopped. The
   stop command wins when configured and leaves the process handle set;
   otherwise the process tree is killed and the handle cleared; with no
   handle nothing is done but a log line. The GUI counts as stopped in
   every case.
   */
  function StopStep(cfg: Config, s: Controller): (r: Step)
    ensures s.guiRunning && !s.guiNeeded ==> !r.state.guiRunning
    ensures s.guiRunning && !s.guiNeeded && cfg.guiStop != "" ==>
      r.actions == [RunStopCmd] && r.state.hasProcess == s.hasProcess
    ensures s.guiRunning && !s.guiNeeded && cfg.guiStop == "" && s.hasProcess ==>
      r.actions == [KillTree] && !r.state.hasProcess
    ensures s.guiRunning && !s.guiNeeded && cfg.guiStop == "" && !s.hasProcess ==>
      r.actions == [] && !r.state.hasProcess
    ensures !(s.guiRunning && !s.guiNeeded) ==> r == Step(s, [])
    ensures r.state.guiNeeded == s.guiNeeded && r.state.shutdown == s.shutdown && r.state.screen == s.screen
  {
    if s.guiRunning && !s.guiNeeded then
      if cfg.guiStop != "" then Step(s.(guiRunning := false), [RunStopCmd])
      else if s.hasProcess then Step(s.(guiRunning := false, hasProcess := false), [KillTree])
      else Step(s.(guiRunning := false), [])
    else
      Step(s, [])
  }

  /** Start then stop: afterwards the GUI runs exactly when it is needed. */
  function Reconcile(cfg: Config, s: Controller): (r: Step)
    ensures r.state.guiRunning == r.state.guiNeeded
    ensures r.state.guiNeeded == s.guiNeeded && r.state.shutdown == s.shutdown && r.state.screen == s.screen
    ensures (s.guiRunning ==> s.hasProcess) ==> (r.state.guiRunning ==> r.state.hasProcess)
    ensures |r.actions| <= 1
    ensures StartGui in r.actions <==> s.guiNeeded && !s.guiRunning
    ensures (RunStopCmd in r.actions || KillTree in r.actions) ==> !s.guiNeeded && s.guiRunning
    ensures RunShutdown !in r.actions
  {
    var started := StartStep(s);
    var stopped := StopStep(cfg, started.state);
    Step(stopped.state, started.actions + stopped.actions)
  }

  /** Exit detection: an exited process clears the running flag; it never sets it. */
  function ExitStep(s: Controller, processExited: bool): (s': Controller)
    ensures s'.guiRunning <==> s.guiRunning && !(s.hasProcess && processExited)
    ensures s' == s.(guiRunning := s'.guiRunning)
  {
    if s.hasProcess && processExited then s.(guiRunning := false) else s
  }

  /** The screen poll with the default `skip`; its `changed` flag only reaches the log. */
  function PollStep(s: Controller, probe: Option<Mode>): (s': Controller)
    ensures s'.screen.Some?
    ensures s' == s.(screen := s'.screen)
  {
    s.(screen := Some(PollScreenChange(s.screen, DefaultSkip, probe)))
  }

  /** The shutdown step: a set `shutdown` issues the shutdown command, once, and breaks the loop. */
  function ShutdownStep(s: Controller, actions: seq<Action>): (r: TickResult)
    requires RunShutdown !in actions
    ensures r.state == s
    ensures r.breaks <==> s.shutdown
    ensures multiset(r.actions)[RunShutdown] == if r.breaks then 1 else 0
    ensures r.breaks ==> r.actions == actions + [RunShutdown]
    ensures !r.breaks ==> r.actions == actions
  {
    assert multiset(actions)[RunShutdown] == 0;
    if s.shutdown then
      var issued := actions + [RunShutdown];
      assert multiset(issued) == multiset(actions) + multiset{RunShutdown};
      TickResult(s, issued, true)
    else
      TickResult(s, actions, false)
  }

  /** One pass of the loop body. */
  function Tick(cfg: Config, s: Controller, input: TickInput): (r: TickResult)
    ensures r.state.guiNeeded == (s.guiNeeded != input.pressed)
    ensures r.state.shutdown == (if input.pressed then !r.state.guiNeeded && !input.recordPending else s.shutdown)
    ensures r.breaks <==> r.state.shutdown
    ensures r.state.guiRunning ==> r.state.guiNeeded
    ensures (s.guiRunning ==> s.hasProcess) ==> (r.state.guiRunning ==> r.state.hasProcess)
    ensures !s.shutdown && r.breaks ==> !r.state.guiNeeded && !r.state.guiRunning
    ensures multiset(r.actions)[RunShutdown] == if r.breaks then 1 else 0
    ensures r.breaks ==> |r.actions| > 0 && r.actions[|r.actions| - 1] == RunShutdown
  {
    var pressed := ButtonStep(s, input.pressed, input.recordPending);
    var reconciled := Reconcile(cfg, pressed);
    var exited := ExitStep(reconciled.state, input.processExited);
    var polled := PollStep(exited, input.probe);
    ShutdownStep(polled, reconciled.actions)
  }

  /**
   What holds at the top of every pass of the loop: `shutdown` is false
   (a true `shutdown` breaks the loop in the pass that set it), and a GUI
   counted as running is needed and has a process handle.
   */
  predicate LoopInvariant(s: Controller) {
    && !s.shutdown
    && (s.guiRunning ==> s.guiNeeded && s.hasProcess)
  }

  /** The loop starts in the invariant, and every pass that does not break keeps it. */
  lemma TickKeepsLoopInvariant(cfg: Config, s: Controller, input: TickInput, woke: bool)
    ensures LoopInvariant(Init(woke))
    ensures LoopInvariant(s) && !Tick(cfg, s, input).breaks ==> LoopInvariant(Tick(cfg, s, input).state)
    ensures LoopInvariant(s) ==> (Tick(cfg, s, input).state.shutdown ==> !Tick(cfg, s, input).state.guiNeeded)
  {
  }

  /**
   The GUI actions of one pass, in terms of the state it starts from and
   the need after the button: the GUI is started when it is needed and
   not running; a running GUI that is no longer needed is stopped by the
   configured command, or else by killing its process tree when there is
   a handle. A pass issues at most one of these plus the shutdown.
   */
  lemma TickActions(cfg: Config, s: Controller, input: TickInput)
    ensures var r := Tick(cfg, s, input);
      var needed := s.guiNeeded != input.pressed;
      && (StartGui in r.actions <==> needed && !s.guiRunning)
      && (RunStopCmd in r.actions <==> !needed && s.guiRunning && cfg.guiStop != "")
      && (KillTree in r.actions <==> !needed && s.guiRunning && cfg.guiStop == "" && s.hasProcess)
      && (RunShutdown in r.actions <==> r.breaks)
      && |r.actions| <= 2
  {
    var pressed := ButtonStep(s, input.pressed, input.recordPending);
    var reconciled := Reconcile(cfg, pressed);
    ReconcileStopActions(cfg, pressed);
    var polled := PollStep(ExitStep(reconciled.state, input.processExited), input.probe);
    assert Tick(cfg, s, input) == ShutdownStep(polled, reconciled.actions);
  }

  /** Which stop action start-then-stop issues: the command when configured, else a kill when there is a handle. */
  lemma ReconcileStopActions(cfg: Config, s: Controller)
    ensures RunStopCmd in Reconcile(cfg, s).actions <==> !s.guiNeeded && s.guiRunning && cfg.guiStop != ""
    ensures KillTree in Reconcile(cfg, s).actions <==> !s.guiNeeded && s.guiRunning && cfg.guiStop == "" && s.hasProcess
  {
    var started := StartStep(s);
    assert started.state.guiRunning == (s.guiRunning || s.guiNeeded);
    assert Reconcile(cfg, s).actions == started.actions + StopStep(cfg, started.state).actions;
  }

  /** The outcome of running the loop over a sequence of tick inputs: the trace of actions and whether it broke. */
  datatype RunResult = RunResult(state: Controller, trace: seq<Action>, stopped: bool)

  /**
   The shape of the `while 1` loop with its `break`, for any pass: passes
   run in input order until one breaks or the inputs are used up. A single
   input is one pass: its state, its actions and whether it broke. No
   inputs leave the state as it was. Longer runs are composed from these
   by `LoopContinuesAcrossInputs` and `LoopIgnoresInputsAfterBreak`.
   */
  function Loop(pass: (Controller, TickInput) -> TickResult, s: Controller, inputs: seq<TickInput>): (r: RunResult)
    ensures |inputs| == 0 ==> r == RunResult(s, [], false)
    ensures r.stopped ==> |inputs| > 0
    ensures |inputs| > 0 && pass(s, inputs[0]).breaks ==>
      r == RunResult(pass(s, inputs[0]).state, pass(s, inputs[0]).actions, true)
    ensures |inputs| == 1 ==>
      r == RunResult(pass(s, inputs[0]).state, pass(s, inputs[0]).actions, pass(s, inputs[0]).breaks)
    decreases |inputs|
  {
    if |inputs| == 0 then RunResult(s, [], false)
    else
      var t := pass(s, inputs[0]);
      if t.breaks then RunResult(t.state, t.actions, true)
      else
        var rest := Loop(pass, t.state, inputs[1..]);
        RunResult(rest.state, t.actions + rest.trace, rest.stopped)
  }

  /** Once the loop has broken within `xs`, the inputs after `xs` are never read. */
  lemma {:induction false} LoopIgnoresInputsAfterBreak(
    pass: (Controller, TickInput) -> TickResult, s: Controller, xs: seq<TickInput>, ys: seq<TickInput>)
    requires Loop(pass, s, xs).stopped
    ensures Loop(pass, s, xs + ys) == Loop(pass, s, xs)
    decreases |xs|
  {
    var t := pass(s, xs[0]);
    assert (xs + ys)[0] == xs[0];
    assert (xs + ys)[1..] == xs[1..] + ys;
    if !t.breaks {
      LoopIgnoresInputsAfterBreak(pass, t.state, xs[1..], ys);
    }
  }

  /**
   A loop over `xs` that does not break leaves off where a loop over `ys`
   picks up: the loop over `xs + ys` is the two in sequence, with the
   traces concatenated.
   */
  lemma {:induction false} LoopContinuesAcrossInputs(
    pass: (Controller, TickInput) -> TickResult, s: Controller, xs: seq<TickInput>, ys: seq<TickInput>)
    requires !Loop(pass, s, xs).stopped
    ensures var a := Loop(pass, s, xs);
      var b := Loop(pass, a.state, ys);
      Loop(pass, s, xs + ys) == RunResult(b.state, a.trace + b.trace, b.stopped)
    decreases |xs|
  {
    if |xs| == 0 {
      assert xs + ys == ys;
    } else {
      var t := pass(s, xs[0]);
      assert (xs + ys)[0] == xs[0];
      assert (xs + ys)[1..] == xs[1..] + ys;
      LoopContinuesAcrossInputs(pass, t.state, xs[1..], ys);
      var a' := Loop(pass, t.state, xs[1..]);
      var b := Loop(pass, a'.state, ys);
      assert t.actions + (a'.trace + b.trace) == (t.actions + a'.trace) + b.trace;
    }
  }

  /** The controller's own loop: `Loop` with `Tick` as the pass. */
  function Run(cfg: Config, s: Controller, inputs: seq<TickInput>): (r: RunResult)
    ensures |inputs| == 0 ==> r == RunResult(s, [], false)
    ensures r.stopped ==> |inputs| > 0
    ensures |inputs| > 0 && Tick(cfg, s, inputs[0]).breaks ==>
      r == RunResult(Tick(cfg, s, inputs[0]).state, Tick(cfg, s, inputs[0]).actions, true)
  {
    Loop((c, i) => Tick(cfg, c, i), s, inputs)
  }

  /** A run over one input is one pass of the loop body: `Tick`'s state, actions and break. */
  lemma RunOnePass(cfg: Config, s: Controller, x: TickInput)
    ensures Run(cfg, s, [x]) == RunResult(Tick(cfg, s, x).state, Tick(cfg, s, x).actions, Tick(cfg, s, x).breaks)
  {
  }

  /**
   Over any run from a state in the loop invariant, the shutdown command
   is issued exactly once if the loop broke and never otherwise, it is
   the last action, and on breaking the GUI is neither needed nor running.
   A run that does not break ends in the invariant again.
   */
  lemma {:induction false} RunShutdownOnce(cfg: Config, s: Controller, inputs: seq<TickInput>)
    requires LoopInvariant(s)
    ensures var r := Run(cfg, s, inputs);
      && multiset(r.trace)[RunShutdown] == (if r.stopped then 1 else 0)
      && (r.stopped ==> |r.trace| > 0 && r.trace[|r.trace| - 1] == RunShutdown)
      && (r.stopped ==> !r.state.guiNeeded && !r.state.guiRunning)
      && (!r.stopped ==> LoopInvariant(r.state))
    decreases |inputs|
  {
    if |inputs| == 0 {
      assert Run(cfg, s, inputs) == RunResult(s, [], false);
    } else {
      var t := Tick(cfg, s, inputs[0]);
      if t.breaks {
        assert Run(cfg, s, inputs) == RunResult(t.state, t.actions, true);
      } else {
        var rest := Run(cfg, t.state, inputs[1..]);
        assert Run(cfg, s, inputs) == RunResult(rest.state, t.actions + rest.trace, rest.stopped);
        RunShutdownOnce(cfg, t.state, inputs[1..]);
        RunStepAppend(t.actions, rest.trace);
      }
    }
  }

  /** The shutdown count and the last action of a trace extended at the front. */
  lemma RunStepAppend(first: seq<Action>, rest: seq<Action>)
    ensures multiset(first + rest)[RunShutdown] == multiset(first)[RunShutdown] + multiset(rest)[RunShutdown]
    ensures |rest| > 0 ==> (first + rest)[|first + rest| - 1] == rest[|rest| - 1]
  {
    assert multiset(first + rest) == multiset(first) + multiset(rest);
  }

  /** A run that does not break passes its first tick and continues from that tick's state. */
  lemma RunUnfoldPass(cfg: Config, s: Controller, inputs: seq<TickInput>)
    requires |inputs| > 0 && !Run(cfg, s, inputs).stopped
    ensures !Tick(cfg, s, inputs[0]).breaks
    ensures Tick(cfg, s, inputs[0]).state.guiNeeded == (s.guiNeeded != inputs[0].pressed)
    ensures Run(cfg, s, inputs).state == Run(cfg, Tick(cfg, s, inputs[0]).state, inputs[1..]).state
    ensures !Run(cfg, Tick(cfg, s, inputs[0]).state, inputs[1..]).stopped
  {
  }

  /** The number of presses among the inputs. */
  function Presses(inputs: seq<TickInput>): nat {
    if |inputs| == 0 then 0 else (if inputs[0].pressed then 1 else 0) + Presses(inputs[1..])
  }

  /**
   Each press toggles whether the GUI is needed and nothing else does: a
   run that consumes all its inputs flips the flag exactly when it saw an
   odd number of presses, so two presses restore it.
   */
  lemma {:induction false} RunTogglesByPressParity(cfg: Config, s: Controller, inputs: seq<TickInput>)
    requires !Run(cfg, s, inputs).stopped
    ensures Run(cfg, s, inputs).state.guiNeeded == (s.guiNeeded != (Presses(inputs) % 2 == 1))
    decreases |inputs|
  {
    if |inputs| == 0 {
      assert Run(cfg, s, inputs).state == s;
    } else {
      var t := Tick(cfg, s, inputs[0]);
      RunUnfoldPass(cfg, s, inputs);
      var rest := Run(cfg, t.state, inputs[1..]);
      RunTogglesByPressParity(cfg, t.state, inputs[1..]);
      ParityOfOneMore(inputs[0].pressed, Presses(inputs[1..]));
    }
  }

  /** One more press flips the parity of the press count; one more input without a press keeps it. */
  lemma ParityOfOneMore(pressed: bool, n: nat)
    ensures (((if pressed then 1 else 0) + n) % 2 == 1) == (pressed != (n % 2 == 1))
  {
  }

  /**
   Started without a recording wake-up and with no stop command, the loop
   starts the GUI on its first pass; a press on the second pass with no
   recording pending kills the GUI tree, issues the shutdown and breaks.
   */
  lemma StartThenPowerOff(probe: Option<Mode>, third: TickInput)
    ensures Run(Config(""), Init(false), [
        TickInput(false, false, false, probe),
        TickInput(true, false, false, probe),
        third])
      == RunResult(
        Controller(false, false, false, true, Some(PollState(false, 1, probe))),
        [StartGui, KillTree, RunShutdown],
        true)
  {
    var inputs := [
        TickInput(false, false, false, probe),
        TickInput(true, false, false, probe),
        third];
    assert inputs[1..][1..] == [third];
  }
}

=== FILE: xrandr.dfy ===
/**
 The display-mode side of the watchdog: the tokenizer for `xrandr -q`
 mode lines (the pattern `^\s+(\d+)x(\d+)\s+([\d.]+)([*+]?)`), the screen
 records built from the screen-header matches, and the selection of the
 current mode of the primary screen.
 */
module Xrandr {
  import opened Maybe
  import opened Text

  /** The four groups of a successful mode-line match. */
  datatype ModeMatch = ModeMatch(width: string, height: string, rate: string, marker: string)

  /** The dictionary `xrandr_query` builds per mode: the groups as strings plus two flags. */
  datatype Mode = Mode(width: string, height: string, rate: string, active: bool, preferred: bool)

  /** One `findall` tuple of the screen-header pattern: name, the `primary` group, the mode block. */
  datatype ScreenMatch = ScreenMatch(name: string, primaryGroup: string, modeBlock: string)

  datatype Screen = Screen(name: string, primary: bool, modes: seq<Mode>)

  /** The characters of `line` in `[lo, hi)` all belong to `cls`. */
  predicate RunOf(line: string, lo: nat, hi: nat, cls: CharClass)
    requires hi <= |line|
  {
    forall k {:trigger InClass(line[k], cls)} :: lo <= k < hi ==> InClass(line[k], cls)
  }

  /** Every character of `s` belongs to `cls`. */
  predicate AllOf(s: string, cls: CharClass) {
    RunOf(s, 0, |s|, cls)
  }

  /**
   The cut points `0 < a < b < c < d < e <= f` of a line that the mode
   pattern can match: leading whitespace `[0, a)`, width digits `[a, b)`,
   `x` at `b`, height digits `(b, c)`, whitespace `[c, d)`, rate `[d, e)`,
   at most one marker `[e, f)`, and anything at all after `f`.
   */
  ghost predicate ModeLineShape(line: string, a: nat, b: nat, c: nat, d: nat, e: nat, f: nat) {
    && 0 < a < b && b + 1 < c < d < e <= f <= |line| && f <= e + 1
    && RunOf(line, 0, a, Space)
    && RunOf(line, a, b, Digit)
    && line[b] == 'x'
    && RunOf(line, b + 1, c, Digit)
    && RunOf(line, c, d, Space)
    && RunOf(line, d, e, RateChar)
    && RunOf(line, e, f, Marker)
  }

  /** The regex engine's choice among shapes: the rate run and the marker take all they can. */
  ghost predicate Greedy(line: string, e: nat, f: nat)
    requires e <= f <= |line|
  {
    && (e == |line| || !InClass(line[e], RateChar))
    && (f == e ==> e == |line| || !InClass(line[e], Marker))
  }

  /** Some choice of cut points fits the line: `re.match` succeeds. */
  ghost predicate MatchesModePattern(line: string) {
    exists a, b, c, d, e, f :: ModeLineShape(line, a, b, c, d, e, f)
  }

  /** The groups a shape captures. */
  function GroupsAt(line: string, a: nat, b: nat, c: nat, d: nat, e: nat, f: nat): ModeMatch
    requires a <= b < c <= d <= e <= f <= |line|
  {
    ModeMatch(line[a..b], line[b + 1..c], line[d..e], line[e..f])
  }

  /** Where the greedy scan ends the rate group and the optional marker. */
  function MarkerEnd(line: string, e: nat): (f: nat)
    requires e <= |line|
  {
    if e < |line| && InClass(line[e], Marker) then e + 1 else e
  }

  /**
   `re.match(pattern_mode, line)`, written as a tokenizer. The pattern's
   character classes are pairwise disjoint where they meet, so the
   backtracking matcher's result is the greedy scan below.
   */
  function MatchModeLine(line: string): (r: Option<ModeMatch>)
    ensures r.Some? ==> |r.value.width| > 0 && AllOf(r.value.width, Digit)
    ensures r.Some? ==> |r.value.height| > 0 && AllOf(r.value.height, Digit)
    ensures r.Some? ==> |r.value.rate| > 0 && AllOf(r.value.rate, RateChar)
    ensures r.Some? ==> r.value.marker in {"", "*", "+"}
  {
    var a := SpanEnd(line, 0, Space);
    if a == 0 then None
    else
      var b := SpanEnd(line, a, Digit);
      if b == a || b == |line| || line[b] != 'x' then None
      else
        var c := SpanEnd(line, b + 1, Digit);
        if c == b + 1 then None
        else
          var d := SpanEnd(line, c, Space);
          if d == c then None
          else
            var e := SpanEnd(line, d, RateChar);
            if e == d then None
            else
              var f := MarkerEnd(line, e);
              assert line[e..f] == "" || line[e..f] == [line[e]];
              Some(GroupsAt(line, a, b, c, d, e, f))
  }

  /** Whatever the tokenizer accepts is a greedy match of the pattern, with the groups it reports. */
  lemma MatchModeLineSound(line: string)
    requires MatchModeLine(line).Some?
    ensures exists a, b, c, d, e, f ::
      && ModeLineShape(line, a, b, c, d, e, f)
      && Greedy(line, e, f)
      && MatchModeLine(line).value == GroupsAt(line, a, b, c, d, e, f)
  {
    var a := SpanEnd(line, 0, Space);
    var b := SpanEnd(line, a, Digit);
    var c := SpanEnd(line, b + 1, Digit);
    var d := SpanEnd(line, c, Space);
    var e := SpanEnd(line, d, RateChar);
    var f := MarkerEnd(line, e);
    assert 0 < a < b < |line| && line[b] == 'x' && b + 1 < c < d < e;
    assert MatchModeLine(line) == Some(GroupsAt(line, a, b, c, d, e, f));
    assert ModeLineShape(line, a, b, c, d, e, f) by {
      assert RunOf(line, 0, a, Space) && RunOf(line, a, b, Digit) && RunOf(line, b + 1, c, Digit);
      assert RunOf(line, c, d, Space) && RunOf(line, d, e, RateChar) && RunOf(line, e, f, Marker);
    }
    assert Greedy(line, e, f);
  }

  /**
   Every line the pattern fits is accepted, with the fitted width and
   height; when the fit is the greedy one, all four groups agree.
   */
  lemma MatchModeLineComplete(line: string, a: nat, b: nat, c: nat, d: nat, e: nat, f: nat)
    requires ModeLineShape(line, a, b, c, d, e, f)
    ensures MatchModeLine(line).Some?
    ensures MatchModeLine(line).value.width == line[a..b]
    ensures MatchModeLine(line).value.height == line[b + 1..c]
    ensures Greedy(line, e, f) ==> MatchModeLine(line) == Some(GroupsAt(line, a, b, c, d, e, f))
  {
    ShapeCuts(line, a, b, c, d, e, f);
  }

  /** The greedy scan stops at a fit's first four cut points, and at all of them when the fit is greedy. */
  lemma ShapeCuts(line: string, a: nat, b: nat, c: nat, d: nat, e: nat, f: nat)
    requires ModeLineShape(line, a, b, c, d, e, f)
    ensures SpanEnd(line, 0, Space) == a && SpanEnd(line, a, Digit) == b
    ensures SpanEnd(line, b + 1, Digit) == c && SpanEnd(line, c, Space) == d
    ensures e <= SpanEnd(line, d, RateChar)
    ensures Greedy(line, e, f) ==> SpanEnd(line, d, RateChar) == e && MarkerEnd(line, e) == f
  {
    assert InClass(line[a], Digit);
    SpanEndUnique(line, 0, Space, a);
    SpanEndUnique(line, a, Digit, b);
    assert InClass(line[c], Space);
    SpanEndUnique(line, b + 1, Digit, c);
    assert InClass(line[d], RateChar);
    SpanEndUnique(line, c, Space, d);
    assert e <= SpanEnd(line, d, RateChar);
    if Greedy(line, e, f) {
      SpanEndUnique(line, d, RateChar, e);
    }
  }

  /** `re.match` succeeds on a line exactly when some choice of cut points fits it. */
  lemma MatchModeLineIff(line: string)
    ensures MatchModeLine(line).Some? <==> MatchesModePattern(line)
  {
    if MatchModeLine(line).Some? {
      MatchModeLineSound(line);
    }
    if MatchesModePattern(line) {
      var a, b, c, d, e, f :| ModeLineShape(line, a, b, c, d, e, f);
      MatchModeLineComplete(line, a, b, c, d, e, f);
    }
  }

  /** The dictionary built from a match: `'*' in marker` and `'+' in marker`. */
  function ModeOf(m: ModeMatch): Mode {
    Mode(m.width, m.height, m.rate, '*' in m.marker, '+' in m.marker)
  }

  /** What a parsed mode always looks like: the exact captured strings and at most one flag. */
  predicate WellFormedMode(m: Mode) {
    && |m.width| > 0 && AllOf(m.width, Digit)
    && |m.height| > 0 && AllOf(m.height, Digit)
    && |m.rate| > 0 && AllOf(m.rate, RateChar)
    && !(m.active && m.preferred)
  }

  /**
   One mode line of `xrandr_query`: a mode when the pattern matches, none
   otherwise. `[*+]?` captures at most one character, so a mode is never
   both active and preferred, and the flag follows that one character.
   */
  function ParseModeLine(line: string): (r: Option<Mode>)
    ensures r.Some? <==> MatchModeLine(line).Some?
    ensures r.Some? ==> WellFormedMode(r.value)
    ensures r.Some? ==> MatchModeLine(line).Some? && r.value.width == MatchModeLine(line).value.width
    ensures r.Some? ==> MatchModeLine(line).Some? && r.value.height == MatchModeLine(line).value.height
    ensures r.Some? ==> MatchModeLine(line).Some? && r.value.rate == MatchModeLine(line).value.rate
    ensures r.Some? ==> MatchModeLine(line).Some? && (r.value.active <==> MatchModeLine(line).value.marker == "*")
    ensures r.Some? ==> MatchModeLine(line).Some? && (r.value.preferred <==> MatchModeLine(line).value.marker == "+")
  {
    match MatchModeLine(line)
    case None => None
    case Some(m) => Some(ModeOf(m))
  }

  /**
   A line yields a mode exactly when the pattern fits it, and then the
   mode carries the groups of the greedy fit.
   */
  lemma ParseModeLineIff(line: string)
    ensures ParseModeLine(line).Some? <==> MatchesModePattern(line)
    ensures forall a, b, c, d, e, f :: ModeLineShape(line, a, b, c, d, e, f) && Greedy(line, e, f) ==>
      ParseModeLine(line) == Some(ModeOf(GroupsAt(line, a, b, c, d, e, f)))
  {
    MatchModeLineIff(line);
    forall a, b, c, d, e, f | ModeLineShape(line, a, b, c, d, e, f) && Greedy(line, e, f)
      ensures ParseModeLine(line) == Some(ModeOf(GroupsAt(line, a, b, c, d, e, f)))
    {
      MatchModeLineComplete(line, a, b, c, d, e, f);
    }
  }

  /**
   A typical mode line: the marker right after the first rate decides the
   flags, and `*+` yields an active mode that is not preferred.
   */
  lemma ParseActiveModeLine()
    ensures ParseModeLine(" 800x600 60.00*+") == Some(Mode("800", "600", "60.00", true, false))
  {
    var line := " 800x600 60.00*+";
    assert ModeLineShape(line, 1, 4, 8, 9, 14, 15) by {
      assert RunOf(line, 0, 1, Space);
      assert RunOf(line, 1, 4, Digit);
      assert RunOf(line, 5, 8, Digit);
      assert RunOf(line, 8, 9, Space);
      assert RunOf(line, 9, 14, RateChar);
      assert RunOf(line, 14, 15, Marker);
    }
    assert Greedy(line, 14, 15);
    assert GroupsAt(line, 1, 4, 8, 9, 14, 15) == ModeMatch("800", "600", "60.00", "*");
    MatchModeLineComplete(line, 1, 4, 8, 9, 14, 15);
  }

  /**
   A marker separated from the first rate by a space is not captured: the
   line parses, but neither flag is set.
   */
  lemma ParseDetachedMarkerLine()
    ensures ParseModeLine(" 800x600 60.00 +") == Some(Mode("800", "600", "60.00", false, false))
  {
    var line := " 800x600 60.00 +";
    assert ModeLineShape(line, 1, 4, 8, 9, 14, 14) by {
      assert RunOf(line, 0, 1, Space);
      assert RunOf(line, 1, 4, Digit);
      assert RunOf(line, 5, 8, Digit);
      assert RunOf(line, 8, 9, Space);
      assert RunOf(line, 9, 14, RateChar);
    }
    assert Greedy(line, 14, 14);
    assert GroupsAt(line, 1, 4, 8, 9, 14, 14) == ModeMatch("800", "600", "60.00", "");
    MatchModeLineComplete(line, 1, 4, 8, 9, 14, 14);
  }

  /** A line without leading whitespace (a screen header, say) is not a mode line. */
  lemma HeaderIsNotModeLine()
    ensures ParseModeLine("VGA1 connected 800x600+0+0").None?
  {
    var line := "VGA1 connected 800x600+0+0";
    assert SpanEnd(line, 0, Space) == 0;
  }

  /** The contribution of one line to the `modes` list: its mode, or nothing. */
  function ModesOfLine(line: string): seq<Mode> {
    match ParseModeLine(line)
    case None => []
    case Some(m) => [m]
  }

  /** The `modes` list of one screen: matching lines, in input order; the others are dropped. */
  function ParseModes(lines: seq<string>): (modes: seq<Mode>)
    ensures |modes| <= |lines|
    ensures forall i :: 0 <= i < |modes| ==> WellFormedMode(modes[i])
  {
    if |lines| == 0 then [] else ModesOfLine(lines[0]) + ParseModes(lines[1..])
  }

  /** Lines are parsed independently and in order: parsing distributes over concatenation. */
  lemma {:induction false} ParseModesAppend(xs: seq<string>, ys: seq<string>)
    ensures ParseModes(xs + ys) == ParseModes(xs) + ParseModes(ys)
  {
    if |xs| > 0 {
      assert (xs + ys)[0] == xs[0];
      assert (xs + ys)[1..] == xs[1..] + ys;
      ParseModesAppend(xs[1..], ys);
    } else {
      assert xs + ys == ys;
    }
  }

  /** A mode is listed exactly when some input line parses to it. */
  lemma {:induction false} ParseModesMembers(lines: seq<string>, m: Mode)
    ensures m in ParseModes(lines) <==> exists i :: 0 <= i < |lines| && ParseModeLine(lines[i]) == Some(m)
  {
    if |lines| > 0 {
      ParseModesMembers(lines[1..], m);
      if exists i :: 0 <= i < |lines[1..]| && ParseModeLine(lines[1..][i]) == Some(m) {
        var i :| 0 <= i < |lines[1..]| && ParseModeLine(lines[1..][i]) == Some(m);
        assert lines[i + 1] == lines[1..][i];
      }
      if exists i :: 0 <= i < |lines| && ParseModeLine(lines[i]) == Some(m) {
        var i :| 0 <= i < |lines| && ParseModeLine(lines[i]) == Some(m);
        if i > 0 {
          assert lines[1..][i - 1] == lines[i];
        }
      }
    }
  }

  /** The screen record for one header match. */
  function BuildScreen(sm: ScreenMatch): Screen {
    Screen(sm.name, sm.primaryGroup == "primary", ParseModes(Split(sm.modeBlock, '\n')))
  }

  /**
   `xrandr_query` over the header matches: one record per match, in
   order, named by the captured word, primary exactly when the optional
   group captured `primary`, with the modes of the block's lines.
   */
  function Query(matches: seq<ScreenMatch>): (screens: seq<Screen>)
    ensures |screens| == |matches|
    ensures forall i :: 0 <= i < |matches| ==>
      && screens[i].name == matches[i].name
      && (screens[i].primary <==> matches[i].primaryGroup == "primary")
      && screens[i].modes == ParseModes(Split(matches[i].modeBlock, '\n'))
  {
    seq(|matches|, i requires 0 <= i < |matches| => BuildScreen(matches[i]))
  }

  /**
   The modes of a block built from separate lines are the modes of those
   lines: `split('\n')` hands the parser exactly the lines it was given.
   */
  lemma QueryModesOfLines(name: string, group: string, lines: seq<string>)
    requires |lines| >= 1
    requires forall i :: 0 <= i < |lines| ==> '\n' !in lines[i]
    ensures Query([ScreenMatch(name, group, Join(lines, '\n'))])[0].modes == ParseModes(lines)
  {
    SplitJoin(lines, '\n');
  }

  /** The position of the first active mode, or `|modes|` when none is. */
  function FirstActiveIndex(modes: seq<Mode>): (k: nat)
    ensures k <= |modes|
    ensures forall l :: 0 <= l < k ==> !modes[l].active
    ensures k < |modes| ==> modes[k].active
  {
    if |modes| == 0 || modes[0].active then 0 else 1 + FirstActiveIndex(modes[1..])
  }

  /**
   `xrandr_current`: the first active mode of the first primary screen
   that has one; non-primary screens are skipped.
   */
  function Current(screens: seq<Screen>): (r: Option<Mode>)
    ensures r.Some? ==> r.value.active
  {
    if |screens| == 0 then None
    else
      var k := FirstActiveIndex(screens[0].modes);
      if screens[0].primary && k < |screens[0].modes| then Some(screens[0].modes[k])
      else Current(screens[1..])
  }

  /**
   Mode `k` of screen `i` is the current mode: screen `i` is primary, that
   mode is its first active one, and no earlier primary screen has an
   active mode.
   */
  ghost predicate IsCurrentAt(screens: seq<Screen>, i: nat, k: nat) {
    && i < |screens| && k < |screens[i].modes|
    && screens[i].primary
    && screens[i].modes[k].active
    && (forall l :: 0 <= l < k ==> !screens[i].modes[l].active)
    && (forall j, l :: 0 <= j < i && screens[j].primary && 0 <= l < |screens[j].modes| ==> !screens[j].modes[l].active)
  }

  /** No primary screen has an active mode. */
  ghost predicate NoPrimaryActive(screens: seq<Screen>) {
    forall j, l :: 0 <= j < |screens| && screens[j].primary && 0 <= l < |screens[j].modes| ==> !screens[j].modes[l].active
  }

  /** `xrandr_current` answers with the mode `IsCurrentAt` singles out. */
  lemma {:induction false} CurrentIsFirstPrimaryActive(screens: seq<Screen>, i: nat, k: nat)
    requires IsCurrentAt(screens, i, k)
    ensures Current(screens) == Some(screens[i].modes[k])
  {
    var k0 := FirstActiveIndex(screens[0].modes);
    if i == 0 {
      assert k0 == k;
    } else {
      assert !(screens[0].primary && k0 < |screens[0].modes|);
      assert IsCurrentAt(screens[1..], i - 1, k) by {
        forall j, l | 0 <= j < i - 1 && screens[1..][j].primary && 0 <= l < |screens[1..][j].modes|
          ensures !screens[1..][j].modes[l].active
        {
          assert screens[1..][j] == screens[j + 1];
        }
      }
      CurrentIsFirstPrimaryActive(screens[1..], i - 1, k);
    }
  }

  /** `xrandr_current` returns `None` exactly when no primary screen has an active mode. */
  lemma {:induction false} CurrentNoneIff(screens: seq<Screen>)
    ensures Current(screens).None? <==> NoPrimaryActive(screens)
  {
    if |screens| > 0 {
      var k0 := FirstActiveIndex(screens[0].modes);
      CurrentNoneIff(screens[1..]);
      if NoPrimaryActive(screens) {
        assert NoPrimaryActive(screens[1..]) by {
          forall j, l | 0 <= j < |screens[1..]| && screens[1..][j].primary && 0 <= l < |screens[1..][j].modes|
            ensures !screens[1..][j].modes[l].active
          {
            assert screens[1..][j] == screens[j + 1];
          }
        }
        assert !(screens[0].primary && k0 < |screens[0].modes|);
      }
      if Current(screens).None? {
        forall j, l | 0 <= j < |screens| && screens[j].primary && 0 <= l < |screens[j].modes|
          ensures !screens[j].modes[l].active
        {
          if j > 0 {
            assert screens[1..][j - 1] == screens[j];
          }
        }
      }
    }
  }
}
